=== FILE: README.md ===
# GuideLine: snapping guides for a fabric canvas

This project models the `GuideLine` class of fabric-guideline-v6 (`src/guideline/index.ts`). The class watches a
fabric canvas. While an object is dragged or scaled, it draws temporary guide lines:

- **neighbour ("around") lines** where the moving object's edges come within a threshold of another shape's edges;
- **vertical and horizontal canvas lines** at the moving object's edges and centre, and at the canvas centre.

On mouse-up or a selection change it removes every guide line again.

The model is split into these modules:

- `StrokeOptions`: the option record, its defaults and the constructor's merge of caller options over the defaults.
- `CanvasObjects`: canvas objects as values. It defines:
  - a guide line, a fabric `Line` whose `id` holds `vertical-`, `horizontal-` or `around`;
  - `Guides`, which lists the guide lines, and `Cleared`, which lists everything else;
  - `Candidates`, the shapes whose type does not match `/line/i`.
- `Canvases`: the part of fabric's `Canvas` the class uses. That is an ordered object list with `add` (append) and `remove` (drop the first equal object), plus the canvas width and height.
- `Scanner`: what `handleAroundObjectLine` draws for each candidate, as pure functions.
- `Detector`: the positions of the canvas lines `handleObjectMoving` draws.
- `Engine`:
  - the specification of a whole pass (`Recompute`) and of each event (`AfterEvent`);
  - the `GuideLine` class, whose methods mirror the source step by step and are proved equal to those specifications;
  - the lemmas relating the passes.

Coordinates, sizes, scales and the threshold are `real`s. Fabric's `Line` is a value holding its id, its segment
`(x1, y1, x2, y2)` and its style.

The model follows the code in three places where the code's behaviour is easy to misread:

- The moving object is not excluded from the neighbour scan when it is itself one of the canvas objects and its type does not match `/line/i`. A dragged `Line` or `Polyline` is filtered out, and a multi-selection target is not among the canvas objects. When the target is on the canvas with a type that does not match `/line/i`, it is scanned against itself. With a non-negative threshold, height and scaleY, this always draws a zero-length horizontal line at its own top-left corner (`Engine.SelfLineInPass`, `Scanner.SelfScan`).
- The canvas-centre distance 180 is a constant of the file, not an option.
- The worked example in `Engine.EndToEndScenario` shows every line the code draws. That includes a vertical neighbour line and the self-scan line.

## Model

| member | source | states |
|---|---|---|
| StrokeOptions.MergeDefaults | src/guideline/index.ts:15-23 | with no options given the merged options are the defaults: threshold 20, centre lines on, line colour #ff4444, snap colour #1111ff, width 1, opacity 1, dash [5, 5] |
| StrokeOptions.MergeComplete | src/guideline/index.ts:28-34 | when every field is given, the options are taken unchanged and no default overrides any of them |
| StrokeOptions.MergeThreshold | src/guideline/index.ts:28-34 | a given threshold replaces the default and leaves every other field as without it; an omitted one falls back to 20 |
| StrokeOptions.MergeCanvasCenterLine | src/guideline/index.ts:28-34 | a given `canvasCenterLine` replaces the default and nothing else |
| Engine.GuideLine.constructor | src/guideline/index.ts:28-34 | keeps the canvas, stores the merged options, and no handler is bound yet |
| Engine.GuideLine.Init | src/guideline/index.ts:36-46 | binds one more set of the four handlers; a second call binds them again |
| Engine.GuideLine.Handle | src/guideline/index.ts:36-46 | before `init` an event changes nothing; after one or more `init` calls the canvas ends exactly as `AfterEvent` says, however many handler sets ran |
| Engine.GuideLine.Respond | src/guideline/index.ts:37-45 | selection:updated and mouse:up clear the guides, object:moving and object:scaling recompute them for the target, and any other event changes nothing |
| Engine.EventNamed | src/guideline/index.ts:37-45 | "selection:updated" gives the selection event, "object:moving" and "object:scaling" the moving and scaling events for the target, "mouse:up" the mouse-up event, and every other name gives `Other` with that name |
| Engine.NamedEventOutcomes | src/guideline/index.ts:37-45 | by name: "mouse:up" and "selection:updated" clear, "object:moving" and "object:scaling" recompute for the target, any other name leaves the canvas unchanged |
| Engine.EventOutcomes | src/guideline/index.ts:37-45 | after mouse:up or selection:updated no guide line is left and the other objects are as before; moving and scaling the same geometry give the same canvas; other events leave it unchanged |
| Engine.AfterEventIdempotent | src/guideline/index.ts:36-46 | handling the same event twice ends as handling it once |
| Engine.GuideLine.HandleAroundObjectLine | src/guideline/index.ts:48-101 | appends, candidate by candidate in canvas order, exactly the neighbour lines `AroundSegments` gives for the candidates taken before the loop |
| Engine.GuideLine.ScanCandidate | src/guideline/index.ts:61-100 | for one candidate, appends its stacking line, then its vertical line, then its horizontal line, each exactly when its condition holds |
| Scanner.AroundOf | src/guideline/index.ts:61-100 | one candidate gives at most three neighbour lines |
| Scanner.AroundSegments | src/guideline/index.ts:61-100 | the scan gives at most three lines per candidate |
| Scanner.AroundOfAnchored | src/guideline/index.ts:68-99 | every line drawn for a candidate is axis-aligned on one of its edges, and that edge is within the threshold of the matching edge of the moving object |
| Scanner.AroundSegmentsAnchored | src/guideline/index.ts:61-100 | every neighbour line drawn is accounted for by some candidate |
| Scanner.AroundSegmentsComplete | src/guideline/index.ts:61-100 | every line any candidate qualifies for is drawn |
| Scanner.AroundSegmentsAppend | src/guideline/index.ts:61-100 | scanning a list of candidates draws the lines of its first part, then those of the rest, with nothing merged across them |
| Scanner.RepeatedCandidate | src/guideline/index.ts:61-100 | no deduplication: a candidate listed twice has its lines drawn twice, and one more candidate adds exactly its own number of lines |
| Scanner.FarCandidateSilent | src/guideline/index.ts:68-99 | a candidate whose edges are all farther than the threshold from the moving edges draws nothing |
| Scanner.LeftEdgeAlignment | src/guideline/index.ts:77-83 | a moving left edge at most the threshold right of the candidate's left edge gives the vertical line at that left edge; when neither the one-sided left-edge test nor the right-edge test holds there is none; for example a moving left edge at 100 and a candidate left edge at 110 with threshold 20 and a far right edge draw nothing; a candidate left edge within the threshold of the moving right edge (the `else if`) gives the line too |
| Scanner.TopEdgeAlignment | src/guideline/index.ts:85-99 | a candidate top within the threshold of the moving top or bottom gives one horizontal line at that top. It ends at the candidate's left edge and starts at the moving right edge when the candidate lies to the left, at the moving left edge otherwise |
| Scanner.VerticalSpanExtent | src/guideline/index.ts:62-66 | the vertical neighbour line lies at the candidate's left edge; for a candidate not above the moving top it runs from `top` to `top - height` (its unscaled height), for one above it from its scaled bottom `top + height * scaleY` to `top + height`, so with scaleY 1 it has no length |
| Scanner.StackingAlignment | src/guideline/index.ts:68-75 | a candidate whose bottom is above the moving top and within the threshold of it gets the horizontal line at its bottom from the moving right edge to its own right edge; otherwise it gets none |
| Scanner.SelfScan | src/guideline/index.ts:61-99 | a geometry scanned against its own box never stacks and, with a non-negative threshold, height and scaleY, always gives the zero-length horizontal line at its top-left corner |
| CanvasObjects.CandidatesMembers | src/guideline/index.ts:54-56 | a geometry is a candidate if and only if some shape on the canvas has it and its type does not match `/line/i` |
| Engine.SelfLineInPass | src/guideline/index.ts:54-99 | a moving object that is a shape on the canvas with a type not matching `/line/i` is among its own candidates, and the scan draws the zero-length line at its top-left corner |
| Geometry.InThresholdBoundary | src/guideline/index.ts:58-59 | `inThreshold` holds at a distance of exactly the threshold (`<=`) |
| Geometry.BoxOf | src/guideline/index.ts:50-53 | the moving box keeps left and top; for non-negative sizes and scales right and bottom are not before left and top |
| Geometry.Center | src/guideline/index.ts:118 | the centre is equally far from both edges and lies between them |
| CanvasObjects.LineIsNeverCandidate | src/guideline/index.ts:54-56 | every fabric `Line`, guide or not, is excluded from the neighbour scan by `/line/i` |
| Text.ContainsIgnoreCaseWindows | src/guideline/index.ts:56 | for any type string, `/line/i` matches exactly when some four-character window of it, lower-cased, spells "line" |
| Text.IgnoresCase | src/guideline/index.ts:56 | any two type strings equal up to letter case both match or both fail |
| Text.LineTypeExamples | src/guideline/index.ts:56 | instances: "line", "Line" and "LINE" match |
| Text.PolylineMatches | src/guideline/index.ts:56 | instance: "polyline" matches, so polylines are no candidates either |
| Text.RectDoesNotMatch | src/guideline/index.ts:56 | instance: "rect" does not match, so rectangles are candidates |
| Engine.GuideLine.HandleObjectMoving | src/guideline/index.ts:103-145 | leaves the canvas exactly as `Recompute`: the old guides removed, then the neighbour lines, then the vertical and horizontal canvas lines appended in that order |
| Engine.GuideLine.VerticalCanvasLines | src/guideline/index.ts:113-127 | appends one full-height line per position of `VerticalXs`, in order |
| Engine.GuideLine.HorizontalCanvasLines | src/guideline/index.ts:129-144 | appends one full-width line per position of `HorizontalYs`, in order |
| Detector.VerticalLines | src/guideline/index.ts:113-127 | no vertical lines when the left edge is not strictly within the canvas width in absolute value. Otherwise left and right edge first; the centre exactly when scaleX > 0.4; the canvas centre last, exactly when enabled and strictly nearer than 180. So 0 or 2 to 4 lines |
| Detector.VerticalXsMembers | src/guideline/index.ts:113-127 | every vertical position is an edge, the gated object centre or the gated canvas centre |
| Detector.HorizontalMirrorsVertical | src/guideline/index.ts:129-144 | the horizontal lines are the vertical ones with top, bottom, scaleY and the canvas height in place of left, right, scaleX and the width |
| Detector.CanvasCenterBoundary | src/guideline/index.ts:122-126 | at a distance of exactly 180 from the canvas centre no centre line is drawn; at 179 it is |
| Detector.CenterScaleGate | src/guideline/index.ts:117-119 | scaleX 0.39 gives no object-centre line, 0.41 gives one |
| Engine.ThresholdAsymmetry | src/guideline/index.ts:58-126 | the neighbour test includes its boundary while the canvas-centre test excludes its own |
| Engine.RecomputeClearsFirst | src/guideline/index.ts:103-111 | after a pass the guides on the canvas are exactly those of this pass, computed against the candidates from before it, and every other object is kept in order |
| Engine.RecomputeIdempotent | src/guideline/index.ts:103-111 | a second pass for the same geometry leaves the canvas as the first: no stale lines accumulate |
| Engine.RecomputeBound | src/guideline/index.ts:48-145 | one pass leaves at most three guide lines per candidate plus eight canvas lines |
| Engine.RenderedStyles | src/guideline/index.ts:147-180 | every line a pass draws is a fabric line with id "around", "vertical-" or "horizontal-"; neighbour lines are stroked in the snap colour and canvas lines in the line colour, all with the line width, opacity and dash pattern of the options |
| CanvasObjects.LinesStyled | src/guideline/index.ts:147-180 | every line one create function draws carries that function's id and style |
| Engine.RenderedAreGuides | src/guideline/index.ts:147-180 | every line a pass draws is a guide line and none is a candidate |
| Engine.EndToEndScenario | src/guideline/index.ts:48-145 | on an 800 x 600 canvas with the defaults, a 40 x 40 square moved to (120, 100) beside a 50 x 50 square at (100, 100) gets exactly three neighbour lines, vertical lines at 120, 160, 140 and horizontal lines at 100, 140, 120 |
| Engine.ScenarioCandidates | src/guideline/index.ts:54-56 | in that example both squares, the moving one included, are candidates and nothing is cleared |
| Engine.ScenarioAround | src/guideline/index.ts:61-100 | in that example the static square gives its left-edge vertical line and its top horizontal line, and the moving square gives its own corner line |
| Engine.ScenarioCanvasLines | src/guideline/index.ts:113-144 | in that example the canvas centre is too far for either centre line |
| Engine.GuideLine.CreateVerticalLine | src/guideline/index.ts:147-157 | appends one guide with id "vertical-" from (x, 0) to (x, canvas height), stroked in the line colour |
| Engine.GuideLine.CreateHorizontalLine | src/guideline/index.ts:159-169 | appends one guide with id "horizontal-" from (0, y) to (canvas width, y), stroked in the line colour |
| Engine.GuideLine.CreateAroundLine | src/guideline/index.ts:171-180 | appends one guide with id "around" between the two given points, stroked in the snap colour |
| CanvasObjects.GuideObjIsGuide | src/guideline/index.ts:183-190 | every line the create functions make is found again by `clearGuideLine` |
| CanvasObjects.UntaggedLineIsNoGuide | src/guideline/index.ts:184-189 | a line without an id is never removed |
| Engine.GuideLine.ClearGuideLine | src/guideline/index.ts:182-194 | removes the listed guides one by one and leaves exactly `Cleared` of the old objects |
| Canvases.RemoveFirstGuide | src/guideline/index.ts:192 | removing the first listed guide leaves the rest of the list to remove and does not touch other objects |
| CanvasObjects.ClearedMembers | src/guideline/index.ts:182-194 | an object survives clearing if and only if it was on the canvas and is not a guide; it is removed if and only if it was there and is one |
| CanvasObjects.ClearedInOrder | src/guideline/index.ts:182-194 | survivors and removed guides each keep their canvas order |
| CanvasObjects.ClearedPartition | src/guideline/index.ts:182-194 | survivors and removed guides together are the old objects, as a multiset and in number |
| CanvasObjects.ClearedIdempotent | src/guideline/index.ts:182-194 | after clearing no guide is left, and clearing again changes nothing |
| CanvasObjects.NoGuidesCleared | src/guideline/index.ts:182-194 | clearing a canvas without guides changes nothing |
| CanvasObjects.AllGuidesCleared | src/guideline/index.ts:182-194 | a canvas holding only guides is emptied |
| CanvasObjects.CandidatesCleared | src/guideline/index.ts:54-56 | clearing never changes the candidates of the neighbour scan |
| CanvasObjects.LinesAreGuides | src/guideline/index.ts:147-194 | lines drawn by the create functions are all removed by the next clear and are never candidates |

## Left out

- Rendering: `renderAll` after every add and clear only repaints and is not modelled.
- Event subscription: `canvas.on` and fabric's event loop are modelled by a count of bound handler sets and an `Event` value. The moving target is passed as its geometry (left, top, width, height, scaleX, scaleY). Fabric's `Canvas` and `Line` are not part of this model beyond the object list, `add`, `remove` and the size.
- Floating point: numbers are exact reals, so IEEE rounding in `(left + right) / 2`, `width * scaleX` and the threshold comparisons is not captured.
- `Canvases.Canvas.Remove`: fabric removes by object identity; the model removes the first object equal in value. When two equal guide lines are present, this can remove a different one of the two. The resulting list is the same.
- Styling: the options spread onto every line (colours, `canvasCenterLine`, `threshold` and so on) are reduced to the stroke, stroke width, opacity and dash pattern that affect drawing.
- Options given explicitly as `undefined`: under the object spread they override the default with `undefined`. The model treats them as absent.
- CanvasObjects.HasGuideId: ids are taken to be strings or absent. A line-typed object with a non-string id, such as a number the application set, makes `id?.includes` throw at `src/guideline/index.ts:186`. That aborts `clearGuideLine` and every handler that calls it. This throwing path is not modelled.
- The `!this.canvas` guard in `createHorizontalLine`: the canvas is always present in the model.
- `Text.Contains`: the `/line/i` regular expression is modelled as a case-insensitive (ASCII) substring test, and `includes` as a substring test.
- The build configuration (`vite.config.ts`) is not part of this model.

=== FILE: canvas.dfy ===
/**
 * The host canvas, reduced to what the engine uses: its object list (which
 * `add` and `remove` change in place) and its dimensions.
 */
module Canvases {
  import opened CanvasObjects

  /** fabric's `remove(obj)`: drop the first element equal to `x` (`indexOf`
      and `splice`); a list without `x` is unchanged. */
  function RemoveFirst(s: seq<Obj>, x: Obj): (r: seq<Obj>)
    ensures x !in s ==> r == s
    ensures x in s ==> |r| == |s| - 1 && multiset(r) == multiset(s) - multiset{x}
  {
    if s == [] then []
    else if s[0] == x then assert s == [x] + s[1..]; s[1..]
    else assert s == [s[0]] + s[1..]; [s[0]] + RemoveFirst(s[1..], x)
  }

  class Canvas {
    var objects: seq<Obj>
    var width: real
    var height: real

    constructor (width: real, height: real, objects: seq<Obj>)
      ensures this.width == width && this.height == height && this.objects == objects
    {
      this.width := width;
      this.height := height;
      this.objects := objects;
    }

    /** `canvas.add(obj)`: the object goes on top of the stack. */
    method Add(x: Obj)
      modifies this`objects
      ensures objects == old(objects) + [x]
    {
      objects := objects + [x];
    }

    /** `canvas.remove(obj)`. */
    method Remove(x: Obj)
      modifies this`objects
      ensures objects == RemoveFirst(old(objects), x)
    {
      objects := RemoveFirst(objects, x);
    }
  }

  /** Removing the first guide line of a list removes that line and no other:
      the remaining guide lines are the rest of the list of guide lines, and
      every other object stays where it was. This is why `clearGuideLine`'s
      `forEach(remove)` over the guide lines it listed removes exactly them. */
  lemma {:induction false} RemoveFirstGuide(s: seq<Obj>)
    requires Guides(s) != []
    ensures Guides(RemoveFirst(s, Guides(s)[0])) == Guides(s)[1..]
    ensures Cleared(RemoveFirst(s, Guides(s)[0])) == Cleared(s)
  {
    var x := Guides(s)[0];
    if IsGuide(s[0]) {
      assert x == s[0];
    } else {
      assert Guides(s) == Guides(s[1..]);
      RemoveFirstGuide(s[1..]);
      ClearedMembers(s[1..], x);
      assert IsGuide(x) by { ClearedMembers(s, x); }
      assert RemoveFirst(s, x) == [s[0]] + RemoveFirst(s[1..], x);
    }
  }
}

=== FILE: canvas_objects.dfy ===
/**
 * The objects on a canvas as far as the guide-line engine is concerned: user
 * shapes, the guide lines it renders itself, and the two views it takes of an
 * object list: the guide lines to clear and the shapes to compare against.
 */
module CanvasObjects {
  import opened Wrappers
  import opened Text
  import opened Geometry
  import opened StrokeOptions

  /** Line end points, `new Line([x1, y1, x2, y2])`. */
  datatype Segment = Segment(x1: real, y1: real, x2: real, y2: real)

  /** The styling a rendered line carries: `stroke`, `strokeWidth`, and the
      `opacity` and `strokeDashArray` spread in from the options. */
  datatype Style = Style(stroke: string, strokeWidth: real, opacity: real, strokeDashArray: seq<real>)

  /** An object on the canvas: any fabric object with its `type` string, or a
      fabric `Line` (whose `type` is "line"). Both may carry an `id`. */
  datatype Obj =
    | Shape(kind: string, id: Option<string>, geom: Geom)
    | Line(id: Option<string>, seg: Segment, style: Style)

  /** The fabric `type` of an object. */
  function Kind(o: Obj): string {
    match o
    case Shape(k, _, _) => k
    case Line(_, _, _) => "line"
  }

  /** The three kinds of guide line, told apart by their `id`. */
  datatype Tag = Vertical | Horizontal | Around

  function TagId(t: Tag): string {
    match t
    case Vertical => "vertical-"
    case Horizontal => "horizontal-"
    case Around => "around"
  }

  /** Canvas lines are drawn in `lineColor`, neighbour lines in `snapLineColor`. */
  function StyleFor(t: Tag, o: Options): (st: Style)
    ensures st.stroke == (if t == Around then o.snapLineColor else o.lineColor)
    ensures st.strokeWidth == o.lineWidth && st.opacity == o.opacity
    ensures st.strokeDashArray == o.strokeDashArray
  {
    Style(if t == Around then o.snapLineColor else o.lineColor, o.lineWidth, o.opacity, o.strokeDashArray)
  }

  /** The line object `create*Line` builds for one segment. */
  function GuideObj(t: Tag, seg: Segment, o: Options): Obj {
    Line(Some(TagId(t)), seg, StyleFor(t, o))
  }

  /** The line objects for a run of segments, in order. */
  function Lines(t: Tag, segs: seq<Segment>, o: Options): seq<Obj> {
    seq(|segs|, i requires 0 <= i < |segs| => GuideObj(t, segs[i], o))
  }

  /** `id?.includes("vertical-") || id?.includes("horizontal-") || id?.includes("around")`. */
  predicate HasGuideId(id: Option<string>) {
    id.Some? && (Contains(id.value, "vertical-") || Contains(id.value, "horizontal-") || Contains(id.value, "around"))
  }

  /** An object `clearGuideLine` removes: of type "line" with a guide id. */
  predicate IsGuide(o: Obj) {
    Kind(o) == "line" && HasGuideId(o.id)
  }

  /** `getObjects("line").filter(...)`: the guide lines, in canvas order. */
  function Guides(s: seq<Obj>): seq<Obj> {
    if s == [] then [] else (if IsGuide(s[0]) then [s[0]] else []) + Guides(s[1..])
  }

  /** The list `clearGuideLine` leaves behind: everything that is not a guide line. */
  function Cleared(s: seq<Obj>): seq<Obj> {
    if s == [] then [] else (if IsGuide(s[0]) then [] else [s[0]]) + Cleared(s[1..])
  }

  /** `/line/i.test(type)`. */
  predicate IsLineType(kind: string) {
    ContainsIgnoreCase(kind, "line")
  }

  /** What one object contributes to the neighbour scan: its geometry when its
      type does not match `/line/i`. A `Line` contributes nothing, its type
      being "line" (see `LineIsNeverCandidate`). */
  function CandidateOf(o: Obj): seq<Geom> {
    match o
    case Shape(k, _, g) => if IsLineType(k) then [] else [g]
    case Line(_, _, _) => []
  }

  /** `getObjects().filter((obj) => !/line/i.test(obj.type))`, as geometries in canvas order. */
  function Candidates(s: seq<Obj>): seq<Geom> {
    if s == [] then [] else CandidateOf(s[0]) + Candidates(s[1..])
  }

  /** `a` keeps the elements of `b` it holds in the order `b` has them. */
  predicate IsSubsequence(a: seq<Obj>, b: seq<Obj>)
    decreases |b|
  {
    a == [] || (b != [] && ((a[0] == b[0] && IsSubsequence(a[1..], b[1..])) || IsSubsequence(a, b[1..])))
  }

  // ---------------------------------------------------------------------
  // Guide lines

  /** Every line the engine renders is one that clearing will recognise. */
  lemma GuideObjIsGuide(t: Tag, seg: Segment, o: Options)
    ensures IsGuide(GuideObj(t, seg, o))
    ensures Kind(GuideObj(t, seg, o)) == "line"
  {
    ContainsAt(TagId(t), TagId(t), 0);
  }

  /** A Line never takes part in the neighbour scan. */
  lemma LineIsNeverCandidate(id: Option<string>, seg: Segment, st: Style)
    ensures IsLineType(Kind(Line(id, seg, st)))
  {
    LineTypeExamples();
  }

  /** A user line that carries no guide id survives clearing: clearing removes
      nothing that this engine did not tag. */
  lemma UntaggedLineIsNoGuide(seg: Segment, st: Style)
    ensures !IsGuide(Line(None, seg, st))
  {
  }

  /** Every line of a run carries the run's tag as its id and the tag's style. */
  lemma LinesStyled(t: Tag, segs: seq<Segment>, o: Options)
    ensures forall x :: x in Lines(t, segs, o) ==> x.Line? && x.id == Some(TagId(t)) && x.style == StyleFor(t, o)
  {
  }

  lemma {:induction false} LinesAppend(t: Tag, a: seq<Segment>, b: seq<Segment>, o: Options)
    ensures Lines(t, a + b, o) == Lines(t, a, o) + Lines(t, b, o)
  {
    var l, r := Lines(t, a + b, o), Lines(t, a, o) + Lines(t, b, o);
    assert |l| == |r|;
    forall i | 0 <= i < |l| ensures l[i] == r[i] {
      if i < |a| {
        assert (a + b)[i] == a[i];
      } else {
        assert (a + b)[i] == b[i - |a|];
      }
    }
  }

  // ---------------------------------------------------------------------
  // Clearing

  lemma {:induction false} GuidesAppend(a: seq<Obj>, b: seq<Obj>)
    ensures Guides(a + b) == Guides(a) + Guides(b)
  {
    if a != [] {
      assert (a + b)[0] == a[0] && (a + b)[1..] == a[1..] + b;
      GuidesAppend(a[1..], b);
    } else {
      assert a + b == b;
    }
  }

  lemma {:induction false} ClearedAppend(a: seq<Obj>, b: seq<Obj>)
    ensures Cleared(a + b) == Cleared(a) + Cleared(b)
  {
    if a != [] {
      assert (a + b)[0] == a[0] && (a + b)[1..] == a[1..] + b;
      ClearedAppend(a[1..], b);
    } else {
      assert a + b == b;
    }
  }

  lemma {:induction false} CandidatesAppend(a: seq<Obj>, b: seq<Obj>)
    ensures Candidates(a + b) == Candidates(a) + Candidates(b)
  {
    if a != [] {
      assert (a + b)[0] == a[0] && (a + b)[1..] == a[1..] + b;
      CandidatesAppend(a[1..], b);
    } else {
      assert a + b == b;
    }
  }

  /** Clearing removes exactly the guide lines: an object survives iff it was
      on the canvas and is not a guide line. */
  lemma {:induction false} ClearedMembers(s: seq<Obj>, x: Obj)
    ensures x in Cleared(s) <==> x in s && !IsGuide(x)
    ensures x in Guides(s) <==> x in s && IsGuide(x)
  {
    if s != [] {
      ClearedMembers(s[1..], x);
      assert s == [s[0]] + s[1..];
    }
  }

  /** The survivors keep their original order, and so do the removed lines. */
  lemma {:induction false} ClearedInOrder(s: seq<Obj>)
    ensures IsSubsequence(Cleared(s), s) && IsSubsequence(Guides(s), s)
  {
    if s != [] {
      ClearedInOrder(s[1..]);
      if IsGuide(s[0]) {
        assert Guides(s) == [s[0]] + Guides(s[1..]);
        assert Cleared(s) == Cleared(s[1..]);
      } else {
        assert Cleared(s) == [s[0]] + Cleared(s[1..]);
        assert Guides(s) == Guides(s[1..]);
      }
    }
  }

  /** The survivors and the removed guide lines are, together, exactly the original objects. */
  lemma {:induction false} ClearedPartition(s: seq<Obj>)
    ensures multiset(Cleared(s)) + multiset(Guides(s)) == multiset(s)
    ensures |Cleared(s)| + |Guides(s)| == |s|
  {
    if s != [] {
      ClearedPartition(s[1..]);
      assert s == [s[0]] + s[1..];
    }
  }

  /** Nothing to clear: clearing changes nothing. */
  lemma {:induction false} NoGuidesCleared(s: seq<Obj>)
    requires Guides(s) == []
    ensures Cleared(s) == s
  {
    if s != [] {
      NoGuidesCleared(s[1..]);
    }
  }

  /** A cleared list holds no guide line, so clearing twice is clearing once. */
  lemma {:induction false} ClearedIdempotent(s: seq<Obj>)
    ensures Guides(Cleared(s)) == []
    ensures Cleared(Cleared(s)) == Cleared(s)
  {
    if s != [] {
      ClearedIdempotent(s[1..]);
      GuidesAppend(if IsGuide(s[0]) then [] else [s[0]], Cleared(s[1..]));
      ClearedAppend(if IsGuide(s[0]) then [] else [s[0]], Cleared(s[1..]));
    }
  }

  /** A list made only of guide lines is all cleared. */
  lemma {:induction false} AllGuidesCleared(s: seq<Obj>)
    requires forall i :: 0 <= i < |s| ==> IsGuide(s[i])
    ensures Guides(s) == s && Cleared(s) == [] && Candidates(s) == []
  {
    if s != [] {
      AllGuidesCleared(s[1..]);
      if s[0].Shape? {
        LineTypeExamples();
      }
    }
  }

  /** The rendered lines of one tag are all guide lines. */
  lemma LinesAreGuides(t: Tag, segs: seq<Segment>, o: Options)
    ensures Guides(Lines(t, segs, o)) == Lines(t, segs, o)
    ensures Cleared(Lines(t, segs, o)) == []
    ensures Candidates(Lines(t, segs, o)) == []
  {
    forall i | 0 <= i < |segs| ensures IsGuide(Lines(t, segs, o)[i]) {
      GuideObjIsGuide(t, segs[i], o);
    }
    AllGuidesCleared(Lines(t, segs, o));
  }

  /** Exactly the shapes whose type does not match `/line/i` are candidates:
      a geometry is a candidate if and only if some such shape has it. */
  lemma {:induction false} CandidatesMembers(s: seq<Obj>, g: Geom)
    ensures g in Candidates(s) <==>
      exists i :: 0 <= i < |s| && s[i].Shape? && s[i].geom == g && !IsLineType(s[i].kind)
  {
    if s != [] {
      CandidatesMembers(s[1..], g);
      assert Candidates(s) == CandidateOf(s[0]) + Candidates(s[1..]);
      if g in Candidates(s[1..]) {
        var i :| 0 <= i < |s[1..]| && s[1..][i].Shape? && s[1..][i].geom == g && !IsLineType(s[1..][i].kind);
        assert s[i + 1] == s[1..][i];
      }
      if exists i :: 0 <= i < |s| && s[i].Shape? && s[i].geom == g && !IsLineType(s[i].kind) {
        var i :| 0 <= i < |s| && s[i].Shape? && s[i].geom == g && !IsLineType(s[i].kind);
        if i > 0 {
          assert s[1..][i - 1] == s[i];
        }
      }
    }
  }

  /** Clearing does not change the neighbour candidates: every guide line has type "line". */
  lemma {:induction false} CandidatesCleared(s: seq<Obj>)
    ensures Candidates(Cleared(s)) == Candidates(s)
  {
    if s != [] {
      CandidatesCleared(s[1..]);
      CandidatesAppend(if IsGuide(s[0]) then [] else [s[0]], Cleared(s[1..]));
      if IsGuide(s[0]) && s[0].Shape? {
        LineTypeExamples();
      }
    }
  }
}

=== FILE: detector.dfy ===
/**
 * The canvas-relative detector (the second half of `handleObjectMoving`):
 * full-length lines at the moving object's edges and centre and at the canvas
 * centre. It yields positions; the engine turns them into lines spanning the
 * canvas.
 */
module Detector {
  import opened Geometry
  import opened CanvasObjects

  /** `SNAPPING_DISTANCE`: how near the canvas centre an edge must be (strictly). */
  const SNAPPING_DISTANCE: real := 180.0

  /** Objects scaled to this factor or less get no centre line. */
  const CENTER_SCALE_GATE: real := 0.4

  /** The x positions of the vertical lines, in the order they are added: left
      edge, right edge, object centre, canvas centre. */
  function VerticalXs(g: Geom, canvasWidth: real, centerLine: bool): seq<real> {
    if Abs(g.left) < canvasWidth then
      [g.left, Right(g)]
      + (if g.scaleX > CENTER_SCALE_GATE then [Center(g.left, Right(g))] else [])
      + (if centerLine && Abs(canvasWidth / 2.0 - g.left) < SNAPPING_DISTANCE then [canvasWidth / 2.0] else [])
    else []
  }

  /** The y positions of the horizontal lines: top, bottom, centre, canvas centre. */
  function HorizontalYs(g: Geom, canvasHeight: real, centerLine: bool): seq<real> {
    if Abs(g.top) < canvasHeight then
      [g.top, Bottom(g)]
      + (if g.scaleY > CENTER_SCALE_GATE then [Center(g.top, Bottom(g))] else [])
      + (if centerLine && Abs(canvasHeight / 2.0 - g.top) < SNAPPING_DISTANCE then [canvasHeight / 2.0] else [])
    else []
  }

  /** A vertical line spans the canvas height: (x, 0) to (x, height). */
  function VerticalSpans(xs: seq<real>, canvasHeight: real): seq<Segment> {
    seq(|xs|, i requires 0 <= i < |xs| => Segment(xs[i], 0.0, xs[i], canvasHeight))
  }

  /** A horizontal line spans the canvas width: (0, y) to (width, y). */
  function HorizontalSpans(ys: seq<real>, canvasWidth: real): seq<Segment> {
    seq(|ys|, i requires 0 <= i < |ys| => Segment(0.0, ys[i], canvasWidth, ys[i]))
  }

  /** The same geometry with the axes exchanged. */
  function Transpose(g: Geom): Geom {
    Geom(g.top, g.left, g.height, g.width, g.scaleY, g.scaleX)
  }

  /** Vertical lines: none when the left edge is not within the canvas width
      (in absolute value); otherwise the two edges first, then the centre
      when scaleX > 0.4, then the canvas centre exactly when it is
      enabled and strictly closer than 180 to the left edge. So 0 or 2 to 4. */
  lemma VerticalLines(g: Geom, w: real, centerLine: bool)
    ensures Abs(g.left) >= w ==> VerticalXs(g, w, centerLine) == []
    ensures Abs(g.left) < w ==>
      var xs := VerticalXs(g, w, centerLine);
      var own := g.scaleX > CENTER_SCALE_GATE;
      var mid := centerLine && Abs(w / 2.0 - g.left) < SNAPPING_DISTANCE;
      && 2 <= |xs| <= 4
      && xs[0] == g.left && xs[1] == Right(g)
      && (own ==> xs[2] == Center(g.left, Right(g)))
      && |xs| == 2 + (if own then 1 else 0) + (if mid then 1 else 0)
      && (mid ==> xs[|xs| - 1] == w / 2.0)
  {
  }

  /** Every emitted x is one of the four candidate positions. */
  lemma VerticalXsMembers(g: Geom, w: real, centerLine: bool, x: real)
    requires x in VerticalXs(g, w, centerLine)
    ensures Abs(g.left) < w
    ensures || x == g.left || x == Right(g)
            || (g.scaleX > CENTER_SCALE_GATE && x == Center(g.left, Right(g)))
            || (centerLine && Abs(w / 2.0 - g.left) < SNAPPING_DISTANCE && x == w / 2.0)
  {
  }

  /** Horizontal lines mirror vertical ones: top, bottom, scaleY and the
      canvas height play the parts of left, right, scaleX and the width. */
  lemma HorizontalMirrorsVertical(g: Geom, h: real, centerLine: bool)
    ensures HorizontalYs(g, h, centerLine) == VerticalXs(Transpose(g), h, centerLine)
  {
    assert Right(Transpose(g)) == Bottom(g);
  }

  /** The canvas-centre test is strict: at a distance of exactly 180 no centre
      line is drawn; at 179 it is, when the left edge is on the canvas. */
  lemma CanvasCenterBoundary(g: Geom, w: real)
    requires Abs(g.left) < w
    ensures Abs(w / 2.0 - g.left) == SNAPPING_DISTANCE ==>
      |VerticalXs(g, w, true)| == if g.scaleX > CENTER_SCALE_GATE then 3 else 2
    ensures g.left == w / 2.0 - 179.0 ==> VerticalXs(g, w, true)[|VerticalXs(g, w, true)| - 1] == w / 2.0
  {
  }

  /** The centre-line gate: scaleX 0.39 gives no centre line, 0.41 does. */
  lemma CenterScaleGate(g: Geom, w: real)
    requires Abs(g.left) < w
    ensures g.scaleX == 0.39 ==> VerticalXs(g, w, false) == [g.left, Right(g)]
    ensures g.scaleX == 0.41 ==> VerticalXs(g, w, false) == [g.left, Right(g), Center(g.left, Right(g))]
  {
  }
}

=== FILE: engine.dfy ===
/**
 * The guide-line engine (`GuideLine`): it is attached to one canvas, and on
 * every move or scale of an object it clears the guide lines it rendered
 * before and renders the neighbour lines and the canvas lines for the
 * object's new geometry; on mouse-up and on a selection change it only clears.
 */
module Engine {
  import opened Wrappers
  import opened Text
  import opened Geometry
  import opened StrokeOptions
  import opened CanvasObjects
  import opened Canvases
  import opened Scanner
  import opened Detector

  /** The canvas events the engine subscribes to; `Other` stands for an event
      of any name other than the four subscribed ones ("selection:updated",
      "object:moving", "object:scaling", "mouse:up"), as `EventNamed` builds it.
      The moving and scaling events carry the target's geometry. */
  datatype Event =
    | SelectionUpdated
    | ObjectMoving(target: Geom)
    | ObjectScaling(target: Geom)
    | MouseUp
    | Other(name: string)

  /** The event the canvas fires under `name`: the four names `init`
      subscribes to get their handlers, every other name is `Other`. */
  function EventNamed(name: string, target: Geom): (ev: Event)
    ensures ev.Other? <==>
      name != "selection:updated" && name != "object:moving" && name != "object:scaling" && name != "mouse:up"
    ensures name == "selection:updated" ==> ev == SelectionUpdated
    ensures name == "object:moving" ==> ev == ObjectMoving(target)
    ensures name == "object:scaling" ==> ev == ObjectScaling(target)
    ensures name == "mouse:up" ==> ev == MouseUp
    ensures ev.Other? ==> ev.name == name
    ensures ev.ObjectMoving? || ev.ObjectScaling? ==> ev.target == target
  {
    if name == "selection:updated" then SelectionUpdated
    else if name == "object:moving" then ObjectMoving(target)
    else if name == "object:scaling" then ObjectScaling(target)
    else if name == "mouse:up" then MouseUp
    else Other(name)
  }

  /** The lines one pass for an object of geometry `g` adds, in order: the
      neighbour lines, then the vertical, then the horizontal canvas lines. */
  function Rendered(g: Geom, cands: seq<Geom>, w: real, h: real, o: Options): seq<Obj> {
    Lines(Around, AroundSegments(BoxOf(g), cands, o.threshold), o)
    + Lines(Vertical, VerticalSpans(VerticalXs(g, w, o.canvasCenterLine), h), o)
    + Lines(Horizontal, HorizontalSpans(HorizontalYs(g, h, o.canvasCenterLine), w), o)
  }

  /** The object list after a move or scale of `g`: cleared, then the lines for
      `g` against the candidates left on the cleared canvas. */
  function Recompute(s: seq<Obj>, g: Geom, w: real, h: real, o: Options): seq<Obj> {
    Cleared(s) + Rendered(g, Candidates(Cleared(s)), w, h, o)
  }

  /** The object list after one handler run for `ev`. */
  function AfterEvent(s: seq<Obj>, ev: Event, w: real, h: real, o: Options): seq<Obj> {
    match ev
    case ObjectMoving(g) => Recompute(s, g, w, h, o)
    case ObjectScaling(g) => Recompute(s, g, w, h, o)
    case SelectionUpdated => Cleared(s)
    case MouseUp => Cleared(s)
    case Other(_) => s
  }

  /** Everything a pass renders is a guide line and no candidate. */
  lemma RenderedAreGuides(g: Geom, cands: seq<Geom>, w: real, h: real, o: Options)
    ensures Guides(Rendered(g, cands, w, h, o)) == Rendered(g, cands, w, h, o)
    ensures Cleared(Rendered(g, cands, w, h, o)) == []
    ensures Candidates(Rendered(g, cands, w, h, o)) == []
  {
    var a := Lines(Around, AroundSegments(BoxOf(g), cands, o.threshold), o);
    var v := Lines(Vertical, VerticalSpans(VerticalXs(g, w, o.canvasCenterLine), h), o);
    var z := Lines(Horizontal, HorizontalSpans(HorizontalYs(g, h, o.canvasCenterLine), w), o);
    LinesAreGuides(Around, AroundSegments(BoxOf(g), cands, o.threshold), o);
    LinesAreGuides(Vertical, VerticalSpans(VerticalXs(g, w, o.canvasCenterLine), h), o);
    LinesAreGuides(Horizontal, HorizontalSpans(HorizontalYs(g, h, o.canvasCenterLine), w), o);
    GuidesAppend(a, v); GuidesAppend(a + v, z);
    ClearedAppend(a, v); ClearedAppend(a + v, z);
    CandidatesAppend(a, v); CandidatesAppend(a + v, z);
  }

  /** How every drawn line looks: neighbour lines ("around") in the snap colour,
      canvas lines ("vertical-", "horizontal-") in the line colour, all with the
      width, opacity and dash pattern of the options. */
  lemma RenderedStyles(g: Geom, cands: seq<Geom>, w: real, h: real, o: Options)
    ensures forall x :: x in Rendered(g, cands, w, h, o) ==>
      && x.Line?
      && (x.id == Some("around") || x.id == Some("vertical-") || x.id == Some("horizontal-"))
      && x.style.stroke == (if x.id == Some("around") then o.snapLineColor else o.lineColor)
      && x.style.strokeWidth == o.lineWidth && x.style.opacity == o.opacity
      && x.style.strokeDashArray == o.strokeDashArray
  {
    LinesStyled(Around, AroundSegments(BoxOf(g), cands, o.threshold), o);
    LinesStyled(Vertical, VerticalSpans(VerticalXs(g, w, o.canvasCenterLine), h), o);
    LinesStyled(Horizontal, HorizontalSpans(HorizontalYs(g, h, o.canvasCenterLine), w), o);
  }

  /** Recompute clears first: afterwards the guide lines on the canvas are
      exactly those of this pass, computed against the same candidates as
      before, and every other object is unchanged, in its order. */
  lemma RecomputeClearsFirst(s: seq<Obj>, g: Geom, w: real, h: real, o: Options)
    ensures Guides(Recompute(s, g, w, h, o)) == Rendered(g, Candidates(s), w, h, o)
    ensures Cleared(Recompute(s, g, w, h, o)) == Cleared(s)
    ensures Candidates(Recompute(s, g, w, h, o)) == Candidates(s)
  {
    var r := Rendered(g, Candidates(s), w, h, o);
    CandidatesCleared(s);
    ClearedIdempotent(s);
    RenderedAreGuides(g, Candidates(s), w, h, o);
    GuidesAppend(Cleared(s), r);
    ClearedAppend(Cleared(s), r);
    CandidatesAppend(Cleared(s), r);
  }

  /** No stale lines: a second pass for the same geometry gives the same canvas. */
  lemma RecomputeIdempotent(s: seq<Obj>, g: Geom, w: real, h: real, o: Options)
    ensures Recompute(Recompute(s, g, w, h, o), g, w, h, o) == Recompute(s, g, w, h, o)
  {
    RecomputeClearsFirst(s, g, w, h, o);
    CandidatesCleared(Recompute(s, g, w, h, o));
    CandidatesCleared(s);
  }

  /** At most three neighbour lines per candidate and four canvas lines per axis. */
  lemma RecomputeBound(s: seq<Obj>, g: Geom, w: real, h: real, o: Options)
    ensures |Guides(Recompute(s, g, w, h, o))| <= 3 * |Candidates(s)| + 8
  {
    RecomputeClearsFirst(s, g, w, h, o);
    VerticalLines(g, w, o.canvasCenterLine);
    VerticalLines(Transpose(g), h, o.canvasCenterLine);
    HorizontalMirrorsVertical(g, h, o.canvasCenterLine);
  }

  /** Handling the same event twice is handling it once. */
  lemma AfterEventIdempotent(s: seq<Obj>, ev: Event, w: real, h: real, o: Options)
    ensures AfterEvent(AfterEvent(s, ev, w, h, o), ev, w, h, o) == AfterEvent(s, ev, w, h, o)
  {
    match ev
    case ObjectMoving(g) => RecomputeIdempotent(s, g, w, h, o);
    case ObjectScaling(g) => RecomputeIdempotent(s, g, w, h, o);
    case SelectionUpdated => ClearedIdempotent(s);
    case MouseUp => ClearedIdempotent(s);
    case Other(_) =>
  }

  /** After mouse-up or a selection change no guide line is left, and nothing
      else was touched. A move and a scale of the same geometry are handled alike. */
  lemma EventOutcomes(s: seq<Obj>, ev: Event, w: real, h: real, o: Options)
    ensures (ev.MouseUp? || ev.SelectionUpdated?) ==>
      Guides(AfterEvent(s, ev, w, h, o)) == [] && AfterEvent(s, ev, w, h, o) == Cleared(s)
    ensures ev.ObjectMoving? ==>
      AfterEvent(s, ev, w, h, o) == AfterEvent(s, ObjectScaling(ev.target), w, h, o)
    ensures ev.Other? ==> AfterEvent(s, ev, w, h, o) == s
  {
    ClearedIdempotent(s);
  }

  /** Dispatch by name: "mouse:up" and "selection:updated" clear, "object:moving"
      and "object:scaling" recompute for the target, any other name changes nothing. */
  lemma NamedEventOutcomes(s: seq<Obj>, name: string, g: Geom, w: real, h: real, o: Options)
    ensures name == "mouse:up" || name == "selection:updated" ==> AfterEvent(s, EventNamed(name, g), w, h, o) == Cleared(s)
    ensures name == "object:moving" || name == "object:scaling" ==>
      AfterEvent(s, EventNamed(name, g), w, h, o) == Recompute(s, g, w, h, o)
    ensures EventNamed(name, g).Other? ==> AfterEvent(s, EventNamed(name, g), w, h, o) == s
  {
  }

  /** The moving object, when it is a shape on the canvas whose type does not
      match `/line/i`, is among the candidates of its own pass, and the scan
      draws the zero-length line at its top-left corner. */
  lemma SelfLineInPass(s: seq<Obj>, k: string, id: Option<string>, g: Geom, o: Options)
    requires Shape(k, id, g) in s && !IsLineType(k)
    requires o.threshold >= 0.0 && g.height >= 0.0 && g.scaleY >= 0.0
    ensures g in Candidates(s)
    ensures Segment(g.left, g.top, g.left, g.top) in AroundSegments(BoxOf(g), Candidates(s), o.threshold)
  {
    var i :| 0 <= i < |s| && s[i] == Shape(k, id, g);
    CandidatesMembers(s, g);
    var cs := Candidates(s);
    var j :| 0 <= j < |cs| && cs[j] == g;
    SelfScan(g, o.threshold);
    AroundSegmentsComplete(BoxOf(g), cs, o.threshold, j, Segment(g.left, g.top, g.left, g.top));
  }

  /** The neighbour test is inclusive and the canvas-centre test strict: a
      candidate whose left edge is exactly the threshold left of the moving left
      edge gets its vertical line, while a moving left edge exactly 180 from the
      canvas centre gets no canvas-centre line. */
  lemma ThresholdAsymmetry(g: Geom, c: Geom, w: real, o: Options)
    requires o.threshold > 0.0 && c.left == g.left - o.threshold
    requires Abs(g.left) < w && Abs(w / 2.0 - g.left) == SNAPPING_DISTANCE
    ensures VerticalSpan(BoxOf(g), c) in AroundOf(BoxOf(g), c, o.threshold)
    ensures |VerticalXs(g, w, o.canvasCenterLine)| == if g.scaleX > CENTER_SCALE_GATE then 3 else 2
  {
    LeftEdgeAlignment(BoxOf(g), c, o.threshold);
    VerticalLines(g, w, o.canvasCenterLine);
  }

  /** The worked pass below: a static 50 x 50 square at (100, 100) ... */
  const SCENARIO_FIXED: Geom := Geom(100.0, 100.0, 50.0, 50.0, 1.0, 1.0)
  /** ... and the moving 40 x 40 square at (120, 100), on an 800 x 600 canvas. */
  const SCENARIO_MOVING: Geom := Geom(120.0, 100.0, 40.0, 40.0, 1.0, 1.0)

  /** Both squares are candidates, the moving one included. */
  lemma ScenarioCandidates()
    ensures var s := [Shape("rect", None, SCENARIO_FIXED), Shape("rect", None, SCENARIO_MOVING)];
      Cleared(s) == s && Candidates(s) == [SCENARIO_FIXED, SCENARIO_MOVING]
  {
    var s := [Shape("rect", None, SCENARIO_FIXED), Shape("rect", None, SCENARIO_MOVING)];
    RectDoesNotMatch();
    assert CandidateOf(s[0]) == [SCENARIO_FIXED];
    assert CandidateOf(s[1]) == [SCENARIO_MOVING];
    assert s[1..][1..] == [];
    assert Candidates(s[1..]) == [SCENARIO_MOVING] + Candidates([]);
    assert !IsGuide(s[0]) && !IsGuide(s[1]);
    assert Cleared(s[1..]) == [s[1]] + Cleared([]);
  }

  /** The static square gives a vertical line at its left edge (the moving left
      edge is exactly 20 to its right) and a horizontal one at its top, drawn
      from the moving right edge; the moving square, scanned against itself,
      gives the zero-length horizontal line at its own top-left corner. */
  lemma ScenarioAround()
    ensures AroundSegments(BoxOf(SCENARIO_MOVING), [SCENARIO_FIXED, SCENARIO_MOVING], 20.0)
      == [Segment(100.0, 100.0, 100.0, 50.0), Segment(160.0, 100.0, 100.0, 100.0), Segment(120.0, 100.0, 120.0, 100.0)]
  {
    var m := BoxOf(SCENARIO_MOVING);
    var cs := [SCENARIO_FIXED, SCENARIO_MOVING];
    assert m == Box(120.0, 100.0, 160.0, 140.0);
    assert AroundOf(m, SCENARIO_FIXED, 20.0) == [Segment(100.0, 100.0, 100.0, 50.0), Segment(160.0, 100.0, 100.0, 100.0)];
    assert AroundOf(m, SCENARIO_MOVING, 20.0) == [Segment(120.0, 100.0, 120.0, 100.0)];
    assert cs[..1] == [SCENARIO_FIXED] && cs[..1][..0] == [];
  }

  /** The canvas lines: the moving edges and centre, and no canvas centre line,
      since the canvas centre (400, 300) is 280 and 200 away from the left and
      top edges (120, 100), not strictly nearer than 180. */
  lemma ScenarioCanvasLines()
    ensures VerticalXs(SCENARIO_MOVING, 800.0, true) == [120.0, 160.0, 140.0]
    ensures HorizontalYs(SCENARIO_MOVING, 600.0, true) == [100.0, 140.0, 120.0]
    ensures VerticalSpans([120.0, 160.0, 140.0], 600.0)
      == [Segment(120.0, 0.0, 120.0, 600.0), Segment(160.0, 0.0, 160.0, 600.0), Segment(140.0, 0.0, 140.0, 600.0)]
    ensures HorizontalSpans([100.0, 140.0, 120.0], 800.0)
      == [Segment(0.0, 100.0, 800.0, 100.0), Segment(0.0, 140.0, 800.0, 140.0), Segment(0.0, 120.0, 800.0, 120.0)]
  {
  }

  /** The whole pass over that canvas with the default options. */
  lemma EndToEndScenario()
    ensures
      var s := [Shape("rect", None, SCENARIO_FIXED), Shape("rect", None, SCENARIO_MOVING)];
      Recompute(s, SCENARIO_MOVING, 800.0, 600.0, DEFAULT_OPTIONS) == s
        + (Lines(Around, [Segment(100.0, 100.0, 100.0, 50.0), Segment(160.0, 100.0, 100.0, 100.0),
                         Segment(120.0, 100.0, 120.0, 100.0)], DEFAULT_OPTIONS)
        + Lines(Vertical, [Segment(120.0, 0.0, 120.0, 600.0), Segment(160.0, 0.0, 160.0, 600.0),
                           Segment(140.0, 0.0, 140.0, 600.0)], DEFAULT_OPTIONS)
        + Lines(Horizontal, [Segment(0.0, 100.0, 800.0, 100.0), Segment(0.0, 140.0, 800.0, 140.0),
                             Segment(0.0, 120.0, 800.0, 120.0)], DEFAULT_OPTIONS))
  {
    var s := [Shape("rect", None, SCENARIO_FIXED), Shape("rect", None, SCENARIO_MOVING)];
    var o := DEFAULT_OPTIONS;
    assert o.threshold == 20.0 && o.canvasCenterLine;
    ScenarioCandidates();
    ScenarioAround();
    ScenarioCanvasLines();
    var around := AroundSegments(BoxOf(SCENARIO_MOVING), [SCENARIO_FIXED, SCENARIO_MOVING], 20.0);
    var vertical := VerticalSpans(VerticalXs(SCENARIO_MOVING, 800.0, true), 600.0);
    var horizontal := HorizontalSpans(HorizontalYs(SCENARIO_MOVING, 600.0, true), 800.0);
    assert Recompute(s, SCENARIO_MOVING, 800.0, 600.0, o)
      == s + (Lines(Around, around, o) + Lines(Vertical, vertical, o) + Lines(Horizontal, horizontal, o));
  }

  /** Adding one more vertical line at `x` extends the rendered run by that line. */
  lemma VerticalLinesSnoc(xs: seq<real>, x: real, h: real, o: Options)
    ensures Lines(Vertical, VerticalSpans(xs + [x], h), o)
      == Lines(Vertical, VerticalSpans(xs, h), o) + [GuideObj(Vertical, Segment(x, 0.0, x, h), o)]
  {
    var l := Lines(Vertical, VerticalSpans(xs + [x], h), o);
    var r := Lines(Vertical, VerticalSpans(xs, h), o) + [GuideObj(Vertical, Segment(x, 0.0, x, h), o)];
    assert |l| == |r|;
    forall i | 0 <= i < |l| ensures l[i] == r[i] {
      assert (xs + [x])[i] == if i < |xs| then xs[i] else x;
    }
  }

  /** Adding one more horizontal line at `y` extends the rendered run by that line. */
  lemma HorizontalLinesSnoc(ys: seq<real>, y: real, w: real, o: Options)
    ensures Lines(Horizontal, HorizontalSpans(ys + [y], w), o)
      == Lines(Horizontal, HorizontalSpans(ys, w), o) + [GuideObj(Horizontal, Segment(0.0, y, w, y), o)]
  {
    var l := Lines(Horizontal, HorizontalSpans(ys + [y], w), o);
    var r := Lines(Horizontal, HorizontalSpans(ys, w), o) + [GuideObj(Horizontal, Segment(0.0, y, w, y), o)];
    assert |l| == |r|;
    forall i | 0 <= i < |l| ensures l[i] == r[i] {
      assert (ys + [y])[i] == if i < |ys| then ys[i] else y;
    }
  }

  /** Appending two runs one after the other appends their concatenation. */
  lemma AppendStep(start: seq<Obj>, before: seq<Obj>, after: seq<Obj>, a: seq<Obj>, b: seq<Obj>)
    requires before == start + a && after == before + b
    ensures after == start + (a + b)
  {
  }

  /** One more candidate scanned extends the neighbour lines by its own. */
  lemma ScanStep(start: seq<Obj>, before: seq<Obj>, after: seq<Obj>, m: Box, cs: seq<Geom>, i: nat, o: Options)
    requires i < |cs|
    requires before == start + Lines(Around, AroundSegments(m, cs[..i], o.threshold), o)
    requires after == before + Lines(Around, AroundOf(m, cs[i], o.threshold), o)
    ensures after == start + Lines(Around, AroundSegments(m, cs[..i + 1], o.threshold), o)
  {
    var done, next := AroundSegments(m, cs[..i], o.threshold), AroundOf(m, cs[i], o.threshold);
    assert AroundSegments(m, cs[..i + 1], o.threshold) == done + next by {
      assert cs[..i + 1][..i] == cs[..i] && cs[..i + 1][i] == cs[i];
    }
    LinesAppend(Around, done, next, o);
    AppendStep(start, before, after, Lines(Around, done, o), Lines(Around, next, o));
  }

  /** The stacking, vertical and horizontal steps for one candidate make up its `AroundOf`. */
  lemma CandidateComposition(before: seq<Obj>, afterStacking: seq<Obj>, afterVertical: seq<Obj>, after: seq<Obj>,
                             m: Box, c: Geom, o: Options)
    requires afterStacking == before + Lines(Around, StackingPart(m, c, o.threshold), o)
    requires afterVertical == afterStacking + Lines(Around, VerticalPart(m, c, o.threshold), o)
    requires after == afterVertical + Lines(Around, HorizontalPart(m, c, o.threshold), o)
    ensures after == before + Lines(Around, AroundOf(m, c, o.threshold), o)
  {
    var sp, vp, hp := StackingPart(m, c, o.threshold), VerticalPart(m, c, o.threshold), HorizontalPart(m, c, o.threshold);
    LinesAppend(Around, sp, vp, o);
    LinesAppend(Around, sp + vp, hp, o);
    AppendStep(before, afterStacking, afterVertical, Lines(Around, sp, o), Lines(Around, vp, o));
    AppendStep(before, afterVertical, after, Lines(Around, sp + vp, o), Lines(Around, hp, o));
  }

  /** The four steps of a pass, clear, neighbour lines, vertical and horizontal
      canvas lines, in that order, make up `Recompute`. */
  lemma PassComposition(s: seq<Obj>, cleared: seq<Obj>, afterAround: seq<Obj>, afterVertical: seq<Obj>,
                        afterHorizontal: seq<Obj>, g: Geom, w: real, h: real, o: Options)
    requires cleared == Cleared(s)
    requires afterAround == cleared + Lines(Around, AroundSegments(BoxOf(g), Candidates(cleared), o.threshold), o)
    requires afterVertical == afterAround + Lines(Vertical, VerticalSpans(VerticalXs(g, w, o.canvasCenterLine), h), o)
    requires afterHorizontal == afterVertical + Lines(Horizontal, HorizontalSpans(HorizontalYs(g, h, o.canvasCenterLine), w), o)
    ensures afterHorizontal == Recompute(s, g, w, h, o)
  {
    var a := Lines(Around, AroundSegments(BoxOf(g), Candidates(cleared), o.threshold), o);
    var v := Lines(Vertical, VerticalSpans(VerticalXs(g, w, o.canvasCenterLine), h), o);
    AppendStep(cleared, afterAround, afterVertical, a, v);
    AppendStep(cleared, afterVertical, afterHorizontal, a + v,
               Lines(Horizontal, HorizontalSpans(HorizontalYs(g, h, o.canvasCenterLine), w), o));
  }

  class GuideLine {
    const canvas: Canvas
    const options: Options
    /** How many times `init` has subscribed the handlers. */
    var bindings: nat

    /** Options the caller leaves out fall back to the defaults. */
    constructor (canvas: Canvas, strokeOption: UserOptions)
      ensures this.canvas == canvas && options == Merge(strokeOption) && bindings == 0
    {
      this.canvas := canvas;
      options := Merge(strokeOption);
      bindings := 0;
    }

    /** `init`: subscribes one more set of handlers; nothing guards against a second call. */
    method Init()
      modifies this`bindings
      ensures bindings == old(bindings) + 1
    {
      bindings := bindings + 1;
    }

    /** The canvas fires `ev`: every subscribed handler set runs once, in order.
        Without `init` nothing happens; after one or more calls the outcome is
        that of a single run. */
    method Handle(ev: Event)
      modifies canvas`objects
      ensures bindings == 0 ==> canvas.objects == old(canvas.objects)
      ensures bindings > 0 ==>
        canvas.objects == AfterEvent(old(canvas.objects), ev, canvas.width, canvas.height, options)
    {
      var i := 0;
      while i < bindings
        invariant 0 <= i <= bindings
        invariant i == 0 ==> canvas.objects == old(canvas.objects)
        invariant i > 0 ==>
          canvas.objects == AfterEvent(old(canvas.objects), ev, canvas.width, canvas.height, options)
      {
        Respond(ev);
        if i > 0 {
          AfterEventIdempotent(old(canvas.objects), ev, canvas.width, canvas.height, options);
        }
        i := i + 1;
      }
    }

    /** One handler set of `init` reacting to `ev`. */
    method Respond(ev: Event)
      modifies canvas`objects
      ensures canvas.objects == AfterEvent(old(canvas.objects), ev, canvas.width, canvas.height, options)
    {
      match ev {
        case SelectionUpdated => ClearGuideLine();
        case ObjectMoving(target) => HandleObjectMoving(target);
        case ObjectScaling(target) => HandleObjectMoving(target);
        case MouseUp => ClearGuideLine();
        case Other(_) =>
      }
    }

    /** `handleAroundObjectLine`: one pass over the candidates taken before the
        loop, adding each candidate's stacking, vertical and horizontal lines. */
    method HandleAroundObjectLine(target: Geom)
      modifies canvas`objects
      ensures canvas.objects == old(canvas.objects)
        + Lines(Around, AroundSegments(BoxOf(target), Candidates(old(canvas.objects)), options.threshold), options)
    {
      var objects := Candidates(canvas.objects);
      ghost var m := BoxOf(target);
      ghost var start := canvas.objects;
      for i := 0 to |objects|
        invariant canvas.objects == start + Lines(Around, AroundSegments(m, objects[..i], options.threshold), options)
      {
        ghost var before := canvas.objects;
        ScanCandidate(target, objects[i]);
        ScanStep(start, before, canvas.objects, m, objects, i, options);
      }
      assert objects[..|objects|] == objects;
    }

    /** The `forEach` callback of `handleAroundObjectLine` for one candidate `obj`. */
    method ScanCandidate(target: Geom, obj: Geom)
      modifies canvas`objects
      ensures canvas.objects == old(canvas.objects) + Lines(Around, AroundOf(BoxOf(target), obj, options.threshold), options)
    {
      var snapThreshold := options.threshold;
      var leftEdge := target.left;
      var topEdge := target.top;
      var rightEdge := Right(target);
      var bottomEdge := Bottom(target);
      ghost var m := BoxOf(target);
      ghost var before := canvas.objects;

      var objBottom := Bottom(obj);
      var verticalSnapLine := obj.top < target.top;
      var horizontalSnapLine := obj.left < target.left;
      var x2 := if verticalSnapLine then objBottom else obj.top;
      var y2 := if verticalSnapLine then obj.top + obj.height else obj.top - obj.height;

      if objBottom < topEdge && InThreshold(topEdge, objBottom, snapThreshold) {
        CreateAroundLine(rightEdge, objBottom, Right(obj), objBottom);
        assert StackingPart(m, obj, snapThreshold) == [Segment(rightEdge, objBottom, Right(obj), objBottom)];
        assert Lines(Around, StackingPart(m, obj, snapThreshold), options) == [GuideObj(Around, Segment(rightEdge, objBottom, Right(obj), objBottom), options)];
      } else {
        assert StackingPart(m, obj, snapThreshold) == [];
      }
      ghost var afterStacking := canvas.objects;
      assert afterStacking == before + Lines(Around, StackingPart(m, obj, snapThreshold), options);

      if leftEdge > obj.left && InThreshold(leftEdge, obj.left, snapThreshold) {
        CreateAroundLine(obj.left, x2, obj.left, y2);
      } else if InThreshold(obj.left, rightEdge, snapThreshold) {
        CreateAroundLine(obj.left, x2, obj.left, y2);
      }
      ghost var afterVertical := canvas.objects;
      assert afterVertical == afterStacking + Lines(Around, VerticalPart(m, obj, snapThreshold), options);

      if InThreshold(topEdge, obj.top, snapThreshold) {
        if horizontalSnapLine {
          CreateAroundLine(rightEdge, obj.top, obj.left, obj.top);
        } else {
          CreateAroundLine(leftEdge, obj.top, obj.left, obj.top);
        }
      } else if InThreshold(obj.top, bottomEdge, snapThreshold) {
        if horizontalSnapLine {
          CreateAroundLine(rightEdge, obj.top, obj.left, obj.top);
        } else {
          CreateAroundLine(leftEdge, obj.top, obj.left, obj.top);
        }
      }
      assert canvas.objects == afterVertical + Lines(Around, HorizontalPart(m, obj, snapThreshold), options);

      CandidateComposition(before, afterStacking, afterVertical, canvas.objects, m, obj, options);
    }

    /** `handleObjectMoving`: clear, then the neighbour lines, then the canvas
        lines for the object's edges and centre and for the canvas centre. */
    method HandleObjectMoving(selectedObject: Geom)
      modifies canvas`objects
      ensures canvas.objects == Recompute(old(canvas.objects), selectedObject, canvas.width, canvas.height, options)
    {
      ghost var initial := canvas.objects;
      ClearGuideLine();
      ghost var cleared := canvas.objects;
      HandleAroundObjectLine(selectedObject);
      ghost var afterAround := canvas.objects;
      VerticalCanvasLines(selectedObject);
      ghost var afterVertical := canvas.objects;
      HorizontalCanvasLines(selectedObject);
      PassComposition(initial, cleared, afterAround, afterVertical, canvas.objects,
                      selectedObject, canvas.width, canvas.height, options);
    }

    /** The vertical block of `handleObjectMoving`: when the left edge is on the
        canvas, lines at the left and right edges, at the centre when scaleX
        exceeds 0.4, and at the canvas centre when enabled and near enough. */
    method VerticalCanvasLines(selectedObject: Geom)
      modifies canvas`objects
      ensures canvas.objects == old(canvas.objects)
        + Lines(Vertical, VerticalSpans(VerticalXs(selectedObject, canvas.width, options.canvasCenterLine), canvas.height), options)
    {
      var left := selectedObject.left;
      var right := Right(selectedObject);
      ghost var start := canvas.objects;
      ghost var h := canvas.height;
      ghost var xs: seq<real> := [];
      if Abs(left) < canvas.width {
        CreateVerticalLine(left);
        VerticalLinesSnoc([], left, h, options);
        CreateVerticalLine(right);
        VerticalLinesSnoc([left], right, h, options);
        ghost var own: seq<real> := [];
        ghost var mid: seq<real> := [];
        if selectedObject.scaleX > CENTER_SCALE_GATE {
          CreateVerticalLine(Center(left, right));
          VerticalLinesSnoc([left, right], Center(left, right), h, options);
          own := [Center(left, right)];
        }
        if options.canvasCenterLine && Abs(canvas.width / 2.0 - left) < SNAPPING_DISTANCE {
          CreateVerticalLine(canvas.width / 2.0);
          VerticalLinesSnoc([left, right] + own, canvas.width / 2.0, h, options);
          mid := [canvas.width / 2.0];
        }
        xs := [left, right] + own + mid;
        assert xs == VerticalXs(selectedObject, canvas.width, options.canvasCenterLine);
      }
      assert canvas.objects == start + Lines(Vertical, VerticalSpans(xs, h), options);
    }

    /** The horizontal block of `handleObjectMoving`, the same with top, bottom,
        scaleY and the canvas height. */
    method HorizontalCanvasLines(selectedObject: Geom)
      modifies canvas`objects
      ensures canvas.objects == old(canvas.objects)
        + Lines(Horizontal, HorizontalSpans(HorizontalYs(selectedObject, canvas.height, options.canvasCenterLine), canvas.width), options)
    {
      var top := selectedObject.top;
      var bottom := Bottom(selectedObject);
      ghost var start := canvas.objects;
      ghost var w := canvas.width;
      ghost var ys: seq<real> := [];
      if Abs(top) < canvas.height {
        CreateHorizontalLine(top);
        HorizontalLinesSnoc([], top, w, options);
        CreateHorizontalLine(bottom);
        HorizontalLinesSnoc([top], bottom, w, options);
        ghost var own: seq<real> := [];
        ghost var mid: seq<real> := [];
        if selectedObject.scaleY > CENTER_SCALE_GATE {
          CreateHorizontalLine(Center(top, bottom));
          HorizontalLinesSnoc([top, bottom], Center(top, bottom), w, options);
          own := [Center(top, bottom)];
        }
        if options.canvasCenterLine && Abs(canvas.height / 2.0 - top) < SNAPPING_DISTANCE {
          CreateHorizontalLine(canvas.height / 2.0);
          HorizontalLinesSnoc([top, bottom] + own, canvas.height / 2.0, w, options);
          mid := [canvas.height / 2.0];
        }
        ys := [top, bottom] + own + mid;
        assert ys == HorizontalYs(selectedObject, canvas.height, options.canvasCenterLine);
      }
      assert canvas.objects == start + Lines(Horizontal, HorizontalSpans(ys, w), options);
    }

    /** `createVerticalLine`: a full-height line at `x`. */
    method CreateVerticalLine(x: real)
      modifies canvas`objects
      ensures canvas.objects == old(canvas.objects) + [GuideObj(Vertical, Segment(x, 0.0, x, canvas.height), options)]
    {
      canvas.Add(GuideObj(Vertical, Segment(x, 0.0, x, canvas.height), options));
    }

    /** `createHorizontalLine`: a full-width line at `y`. */
    method CreateHorizontalLine(y: real)
      modifies canvas`objects
      ensures canvas.objects == old(canvas.objects) + [GuideObj(Horizontal, Segment(0.0, y, canvas.width, y), options)]
    {
      canvas.Add(GuideObj(Horizontal, Segment(0.0, y, canvas.width, y), options));
    }

    /** `createAroundLine`: a neighbour line between two points. */
    method CreateAroundLine(x1: real, y1: real, x2: real, y2: real)
      modifies canvas`objects
      ensures canvas.objects == old(canvas.objects) + [GuideObj(Around, Segment(x1, y1, x2, y2), options)]
    {
      canvas.Add(GuideObj(Around, Segment(x1, y1, x2, y2), options));
    }

    /** `clearGuideLine`: list the guide lines, then remove them one by one. */
    method ClearGuideLine()
      modifies canvas`objects
      ensures canvas.objects == Cleared(old(canvas.objects))
    {
      var linesToRemove := Guides(canvas.objects);
      ClearedIdempotent(canvas.objects);
      for i := 0 to |linesToRemove|
        invariant Guides(canvas.objects) == linesToRemove[i..]
        invariant Cleared(canvas.objects) == Cleared(old(canvas.objects))
      {
        RemoveFirstGuide(canvas.objects);
        canvas.Remove(linesToRemove[i]);
      }
      NoGuidesCleared(canvas.objects);
    }
  }
}

=== FILE: geometry.dfy ===
/**
 * Geometry of a fabric object as the guide-line engine reads it: position,
 * unscaled size and scale factors, and the edges derived from them. JavaScript
 * numbers are modelled as exact reals.
 */
module Geometry {

  /** The six numeric properties the engine reads off an object. */
  datatype Geom = Geom(left: real, top: real, width: real, height: real, scaleX: real, scaleY: real)

  /** The edges of an object: `right = left + width * scaleX`, `bottom = top + height * scaleY`. */
  datatype Box = Box(left: real, top: real, right: real, bottom: real)

  function Abs(x: real): (r: real)
    ensures r >= 0.0 && (r == x || r == -x)
  {
    if x < 0.0 then -x else x
  }

  function Right(g: Geom): real {
    g.left + g.width * g.scaleX
  }

  function Bottom(g: Geom): real {
    g.top + g.height * g.scaleY
  }

  /** The edges of `g`; a box of non-negative size and scale is never inverted. */
  function BoxOf(g: Geom): (b: Box)
    ensures b.left == g.left && b.top == g.top
    ensures g.width >= 0.0 && g.scaleX >= 0.0 ==> b.left <= b.right
    ensures g.height >= 0.0 && g.scaleY >= 0.0 ==> b.top <= b.bottom
  {
    Box(g.left, g.top, Right(g), Bottom(g))
  }

  /** `inThreshold(a, b)`: the two coordinates are at most `t` apart (inclusive). */
  predicate InThreshold(a: real, b: real, t: real) {
    Abs(a - b) <= t
  }

  /** The midpoint of two coordinates, between them when they are ordered. */
  function Center(lo: real, hi: real): (c: real)
    ensures lo <= hi ==> lo <= c <= hi
    ensures c - lo == hi - c
  {
    (lo + hi) / 2.0
  }

  /** The test is inclusive: two coordinates exactly `t` apart are in threshold. */
  lemma InThresholdBoundary(a: real, t: real)
    requires t >= 0.0
    ensures InThreshold(a, a + t, t) && InThreshold(a + t, a, t)
  {
  }
}

=== FILE: scanner.dfy ===
/**
 * The neighbour scanner (`handleAroundObjectLine`): for each candidate shape,
 * the "around" segments that show how its edges line up with the moving box.
 * Per candidate at most one stacking, one vertical and one horizontal segment,
 * in that order; candidates in canvas order.
 */
module Scanner {
  import opened Geometry
  import opened CanvasObjects

  /** The candidate's bottom lies above the moving top and within `t` of it: a
      horizontal segment at that bottom, from the moving right edge to the
      candidate's right edge. */
  function StackingPart(m: Box, c: Geom, t: real): seq<Segment> {
    var cb := Bottom(c);
    if cb < m.top && InThreshold(m.top, cb, t) then [Segment(m.right, cb, Right(c), cb)] else []
  }

  /** The vertical segment at the candidate's left edge. When the candidate
      starts above the moving top it runs from the candidate's scaled bottom to
      `top + height` (unscaled height); otherwise from `top` to `top - height`. */
  function VerticalSpan(m: Box, c: Geom): Segment {
    var above := c.top < m.top;
    Segment(c.left, if above then Bottom(c) else c.top, c.left, if above then c.top + c.height else c.top - c.height)
  }

  /** Emitted when the moving left edge lies right of the candidate's left edge
      within `t`, or else when the candidate's left edge is within `t` of the
      moving right edge (`if` / `else if`, both drawing the same segment). */
  function VerticalPart(m: Box, c: Geom, t: real): seq<Segment> {
    if (m.left > c.left && InThreshold(m.left, c.left, t)) || InThreshold(c.left, m.right, t)
    then [VerticalSpan(m, c)] else []
  }

  /** The horizontal segment at the candidate's top, ending at its left edge and
      starting from the moving right edge when the candidate's left edge is left
      of the moving left edge, from the moving left edge otherwise. */
  function HorizontalSpan(m: Box, c: Geom): Segment {
    Segment(if c.left < m.left then m.right else m.left, c.top, c.left, c.top)
  }

  /** Emitted when the candidate's top is within `t` of the moving top, or else
      of the moving bottom. */
  function HorizontalPart(m: Box, c: Geom, t: real): seq<Segment> {
    if InThreshold(m.top, c.top, t) || InThreshold(c.top, m.bottom, t) then [HorizontalSpan(m, c)] else []
  }

  /** Everything one candidate contributes: never more than three segments. */
  function AroundOf(m: Box, c: Geom, t: real): (r: seq<Segment>)
    ensures |r| <= 3
  {
    StackingPart(m, c, t) + VerticalPart(m, c, t) + HorizontalPart(m, c, t)
  }

  /** The segments of all candidates, candidate by candidate in order: at most
      three per candidate. */
  function AroundSegments(m: Box, cs: seq<Geom>, t: real): (r: seq<Segment>)
    ensures |r| <= 3 * |cs|
  {
    if cs == [] then [] else AroundSegments(m, cs[..|cs| - 1], t) + AroundOf(m, cs[|cs| - 1], t)
  }

  /** What makes `s` a neighbour line for candidate `c`: it is axis-aligned and
      lies on an edge of `c` that is within `t` of an edge of the moving box. */
  predicate Anchored(s: Segment, m: Box, c: Geom, t: real) {
    || (s.y1 == s.y2 == Bottom(c) && s.y1 < m.top && m.top - s.y1 <= t && s.x1 == m.right && s.x2 == Right(c))
    || (s.x1 == s.x2 == c.left && (InThreshold(m.left, c.left, t) || InThreshold(c.left, m.right, t)))
    || (s.y1 == s.y2 == c.top && s.x2 == c.left && (s.x1 == m.left || s.x1 == m.right)
        && (InThreshold(m.top, c.top, t) || InThreshold(c.top, m.bottom, t)))
  }

  /** Each segment of one candidate is anchored to that candidate. */
  lemma AroundOfAnchored(m: Box, c: Geom, t: real)
    ensures forall s :: s in AroundOf(m, c, t) ==> Anchored(s, m, c, t)
  {
  }

  /** Each segment of the whole scan is anchored to some candidate: the scan
      draws nothing that no candidate accounts for. */
  lemma {:induction false} AroundSegmentsAnchored(m: Box, cs: seq<Geom>, t: real, k: nat)
    requires k < |AroundSegments(m, cs, t)|
    ensures exists j :: 0 <= j < |cs| && Anchored(AroundSegments(m, cs, t)[k], m, cs[j], t)
  {
    var n := |cs| - 1;
    var front := AroundSegments(m, cs[..n], t);
    if k < |front| {
      AroundSegmentsAnchored(m, cs[..n], t, k);
      var j :| 0 <= j < n && Anchored(front[k], m, cs[..n][j], t);
      assert cs[..n][j] == cs[j];
    } else {
      AroundOfAnchored(m, cs[n], t);
      assert AroundSegments(m, cs, t)[k] in AroundOf(m, cs[n], t);
    }
  }

  /** And the scan leaves nothing out: every segment any candidate qualifies
      for is drawn, with no deduplication between candidates. */
  lemma {:induction false} AroundSegmentsComplete(m: Box, cs: seq<Geom>, t: real, j: nat, s: Segment)
    requires j < |cs| && s in AroundOf(m, cs[j], t)
    ensures s in AroundSegments(m, cs, t)
  {
    var n := |cs| - 1;
    var front, last := AroundSegments(m, cs[..n], t), AroundOf(m, cs[n], t);
    assert AroundSegments(m, cs, t) == front + last;
    if j < n {
      assert cs[..n][j] == cs[j];
      AroundSegmentsComplete(m, cs[..n], t, j, s);
      assert s in front;
    } else {
      assert s in last;
    }
  }

  lemma ConcatAssoc(x: seq<Segment>, y: seq<Segment>, z: seq<Segment>)
    ensures (x + y) + z == x + (y + z)
  {
  }

  /** Scanning a list of candidates is scanning its two parts in turn. */
  lemma {:induction false} AroundSegmentsAppend(m: Box, a: seq<Geom>, b: seq<Geom>, t: real)
    ensures AroundSegments(m, a + b, t) == AroundSegments(m, a, t) + AroundSegments(m, b, t)
    decreases |b|
  {
    if b == [] {
      assert a + b == a;
    } else {
      var n := |b| - 1;
      assert (a + b)[..|a + b| - 1] == a + b[..n];
      assert (a + b)[|a + b| - 1] == b[n];
      AroundSegmentsAppend(m, a, b[..n], t);
      var front, back, last := AroundSegments(m, a, t), AroundSegments(m, b[..n], t), AroundOf(m, b[n], t);
      calc {
        AroundSegments(m, a + b, t);
        AroundSegments(m, a + b[..n], t) + last;
        (front + back) + last;
        { ConcatAssoc(front, back, last); }
        front + (back + last);
        front + AroundSegments(m, b, t);
      }
    }
  }

  /** No deduplication between candidates: a candidate that appears twice has
      its lines drawn twice, and the scan has as many lines as the candidates
      give together. */
  lemma RepeatedCandidate(m: Box, cs: seq<Geom>, c: Geom, t: real)
    ensures AroundSegments(m, [c, c], t) == AroundOf(m, c, t) + AroundOf(m, c, t)
    ensures |AroundSegments(m, cs + [c], t)| == |AroundSegments(m, cs, t)| + |AroundOf(m, c, t)|
  {
    assert [c, c][..1] == [c] && [c][..0] == [];
    assert (cs + [c])[..|cs|] == cs;
  }

  /** A candidate far from every edge of the moving box contributes nothing. */
  lemma FarCandidateSilent(m: Box, c: Geom, t: real)
    requires !(Bottom(c) < m.top && m.top - Bottom(c) <= t)
    requires Abs(m.left - c.left) > t && Abs(c.left - m.right) > t
    requires Abs(m.top - c.top) > t && Abs(c.top - m.bottom) > t
    ensures AroundOf(m, c, t) == []
  {
  }

  /** Left-edge alignment: the moving left edge right of the candidate's left
      edge by at most `t` gives a vertical segment at the candidate's left edge.
      When neither that test nor the right-edge test holds there is none. The
      first test is one-sided: a moving left edge at 100 and a candidate left
      edge at 110 draw nothing with `t` = 20 unless the moving right edge is near
      110. */
  lemma LeftEdgeAlignment(m: Box, c: Geom, t: real)
    ensures m.left > c.left && m.left - c.left <= t ==> VerticalPart(m, c, t) == [VerticalSpan(m, c)]
    ensures !(m.left > c.left && InThreshold(m.left, c.left, t)) && !InThreshold(c.left, m.right, t) ==>
      VerticalPart(m, c, t) == []
    ensures m.left == 100.0 && c.left == 110.0 && t == 20.0 && m.right > 130.0 ==> VerticalPart(m, c, t) == []
    ensures InThreshold(c.left, m.right, t) ==> VerticalPart(m, c, t) == [VerticalSpan(m, c)]
    ensures VerticalSpan(m, c).x1 == VerticalSpan(m, c).x2 == c.left
  {
  }

  /** Stacking: a candidate whose bottom is above the moving top and within `t`
      of it gets the horizontal line at its bottom, from the moving right edge to
      its own right edge; otherwise none. */
  lemma StackingAlignment(m: Box, c: Geom, t: real)
    ensures Bottom(c) < m.top && InThreshold(m.top, Bottom(c), t) ==>
      StackingPart(m, c, t) == [Segment(m.right, Bottom(c), Right(c), Bottom(c))]
    ensures !(Bottom(c) < m.top && InThreshold(m.top, Bottom(c), t)) ==> StackingPart(m, c, t) == []
  {
  }

  /** Top-edge alignment draws from the moving edge nearer the candidate's side:
      the right edge when the candidate starts further left. */
  lemma TopEdgeAlignment(m: Box, c: Geom, t: real)
    requires InThreshold(m.top, c.top, t) || InThreshold(c.top, m.bottom, t)
    ensures HorizontalPart(m, c, t) == [HorizontalSpan(m, c)]
    ensures HorizontalSpan(m, c).y1 == HorizontalSpan(m, c).y2 == c.top && HorizontalSpan(m, c).x2 == c.left
    ensures HorizontalSpan(m, c).x1 == if c.left < m.left then m.right else m.left
  {
  }

  /** For a candidate below (or level with) the moving top, the vertical segment
      runs upward from its top over its unscaled height. For a candidate above
      it, with scale 1, the segment has no length: it starts at the scaled
      bottom `top + height` and ends at the unscaled `top + height`. */
  lemma VerticalSpanExtent(m: Box, c: Geom)
    ensures VerticalSpan(m, c).x1 == VerticalSpan(m, c).x2 == c.left
    ensures c.top >= m.top ==> VerticalSpan(m, c).y1 == c.top && VerticalSpan(m, c).y2 == c.top - c.height
    ensures c.top < m.top ==> VerticalSpan(m, c).y1 == Bottom(c) && VerticalSpan(m, c).y2 == c.top + c.height
    ensures c.top >= m.top ==> VerticalSpan(m, c).y1 - VerticalSpan(m, c).y2 == c.height
    ensures c.top < m.top && c.scaleY == 1.0 ==> VerticalSpan(m, c).y1 == VerticalSpan(m, c).y2
  {
  }

  /** The moving object is itself a candidate when it is on the canvas. Scanned
      against its own box it always yields the zero-length horizontal segment at
      its top-left corner, and never a stacking segment. */
  lemma SelfScan(g: Geom, t: real)
    requires t >= 0.0 && g.height >= 0.0 && g.scaleY >= 0.0
    ensures StackingPart(BoxOf(g), g, t) == []
    ensures HorizontalPart(BoxOf(g), g, t) == [Segment(g.left, g.top, g.left, g.top)]
    ensures Segment(g.left, g.top, g.left, g.top) in AroundOf(BoxOf(g), g, t)
  {
  }
}

=== FILE: stroke_options.dfy ===
/**
 * The engine's configuration (`strokeOptionProps`): the defaults and the
 * merge `{ ...DEFAULT_STROKE_OPTION, ...strokeOption }` done by the constructor.
 */
module StrokeOptions {
  import opened Wrappers

  /** A complete configuration, as held by a constructed engine. */
  datatype Options = Options(
    lineColor: string,
    lineWidth: real,
    canvasCenterLine: bool,
    opacity: real,
    strokeDashArray: seq<real>,
    threshold: real,
    snapLineColor: string)

  /** The caller's partial configuration: `None` is a key the caller left out. */
  datatype UserOptions = UserOptions(
    lineColor: Option<string>,
    lineWidth: Option<real>,
    canvasCenterLine: Option<bool>,
    opacity: Option<real>,
    strokeDashArray: Option<seq<real>>,
    threshold: Option<real>,
    snapLineColor: Option<string>)

  /** `DEFAULT_STROKE_OPTION`. */
  const DEFAULT_OPTIONS: Options :=
    Options("#ff4444", 1.0, true, 1.0, [5.0, 5.0], 20.0, "#1111ff")

  /** No options given (`strokeOption` undefined or `{}`). */
  const NO_OPTIONS: UserOptions := UserOptions(None, None, None, None, None, None, None)

  /** Every key given, with the values of `o`. */
  function AllOf(o: Options): UserOptions {
    UserOptions(Some(o.lineColor), Some(o.lineWidth), Some(o.canvasCenterLine), Some(o.opacity),
                Some(o.strokeDashArray), Some(o.threshold), Some(o.snapLineColor))
  }

  /** The object spread: a key the caller gave wins, every other key keeps its default. */
  function Merge(u: UserOptions): Options {
    Options(
      u.lineColor.GetOr(DEFAULT_OPTIONS.lineColor),
      u.lineWidth.GetOr(DEFAULT_OPTIONS.lineWidth),
      u.canvasCenterLine.GetOr(DEFAULT_OPTIONS.canvasCenterLine),
      u.opacity.GetOr(DEFAULT_OPTIONS.opacity),
      u.strokeDashArray.GetOr(DEFAULT_OPTIONS.strokeDashArray),
      u.threshold.GetOr(DEFAULT_OPTIONS.threshold),
      u.snapLineColor.GetOr(DEFAULT_OPTIONS.snapLineColor))
  }

  /** Without options the engine runs on the defaults: threshold 20, canvas-centre
      lines on, red canvas lines and blue neighbour lines. */
  lemma MergeDefaults()
    ensures Merge(NO_OPTIONS) == DEFAULT_OPTIONS
    ensures Merge(NO_OPTIONS).threshold == 20.0 && Merge(NO_OPTIONS).canvasCenterLine
    ensures Merge(NO_OPTIONS).lineColor != Merge(NO_OPTIONS).snapLineColor
  {
  }

  /** A complete set of options is taken as it is: no default leaks through. */
  lemma MergeComplete(o: Options)
    ensures Merge(AllOf(o)) == o
  {
  }

  /** Each key is decided by the caller's value alone when given, and by the
      default alone otherwise: changing one given key changes only that key. */
  lemma MergeThreshold(u: UserOptions, t: real)
    ensures Merge(u.(threshold := Some(t))) == Merge(u).(threshold := t)
    ensures Merge(u.(threshold := None)) == Merge(u).(threshold := DEFAULT_OPTIONS.threshold)
  {
  }

  /** Switching the canvas-centre lines changes nothing else. */
  lemma MergeCanvasCenterLine(u: UserOptions, on: bool)
    ensures Merge(u.(canvasCenterLine := Some(on))) == Merge(u).(canvasCenterLine := on)
  {
  }
}

=== FILE: text.dfy ===
/**
 * The two string tests the guide-line engine relies on: the case-insensitive
 * `/line/i.test(type)` that excludes line-like objects from the neighbour scan,
 * and `String.prototype.includes` on an object's `id`.
 */
module Text {

  /** ASCII upper case to lower case; every other character is kept. A regular
      expression without the `u` flag folds no non-ASCII character onto a
      letter of "line", so this is exact for that pattern. */
  function LowerChar(c: char): char {
    if 'A' <= c <= 'Z' then (c as int - 'A' as int + 'a' as int) as char else c
  }

  function Lower(s: string): (r: string)
    ensures |r| == |s|
    ensures forall i :: 0 <= i < |s| ==> r[i] == LowerChar(s[i])
  {
    seq(|s|, i requires 0 <= i < |s| => LowerChar(s[i]))
  }

  predicate HasPrefix(s: string, p: string) {
    |p| <= |s| && s[..|p|] == p
  }

  /** `s.includes(p)`: `p` occurs in `s` at some position. */
  predicate Contains(s: string, p: string)
    decreases |s|
  {
    HasPrefix(s, p) || (|s| > 0 && Contains(s[1..], p))
  }

  /** `new RegExp(p, "i").test(s)` for a pattern `p` made of lower-case letters only. */
  predicate ContainsIgnoreCase(s: string, p: string) {
    Contains(Lower(s), p)
  }

  /** `includes` finds `p` exactly where it occurs: at position `k` of `s`. */
  lemma {:induction false} ContainsAt(s: string, p: string, k: nat)
    requires k + |p| <= |s| && s[k..k + |p|] == p
    ensures Contains(s, p)
    decreases k
  {
    if k == 0 {
      assert s[..|p|] == s[0..|p|];
    } else {
      assert s[1..][k - 1..k - 1 + |p|] == s[k..k + |p|];
      ContainsAt(s[1..], p, k - 1);
    }
  }

  /** And nowhere else: a match gives the position it starts at. */
  lemma {:induction false} ContainsWitness(s: string, p: string) returns (k: nat)
    requires Contains(s, p)
    ensures k + |p| <= |s| && s[k..k + |p|] == p
    decreases |s|
  {
    if HasPrefix(s, p) {
      k := 0;
      assert s[0..|p|] == s[..|p|];
    } else {
      var j := ContainsWitness(s[1..], p);
      k := j + 1;
      assert s[1..][j..j + |p|] == s[k..k + |p|];
    }
  }

  /** The window of `s` at position `k`, lower-cased, is `p`. */
  predicate MatchesAt(s: string, p: string, k: nat) {
    k + |p| <= |s| && Lower(s[k..k + |p|]) == p
  }

  /** Lower-casing commutes with taking a slice. */
  lemma LowerSlice(s: string, i: nat, j: nat)
    requires i <= j <= |s|
    ensures Lower(s)[i..j] == Lower(s[i..j])
  {
    var l, r := Lower(s)[i..j], Lower(s[i..j]);
    assert |l| == |r| == j - i;
    forall n | 0 <= n < j - i
      ensures l[n] == r[n]
    {
      assert l[n] == Lower(s)[i + n] == LowerChar(s[i + n]);
      assert r[n] == LowerChar(s[i..j][n]);
    }
  }

  /** The case-insensitive test holds exactly when some window of `s`, with its
      letters lower-cased, spells `p`. */
  lemma {:induction false} ContainsIgnoreCaseWindows(s: string, p: string)
    ensures ContainsIgnoreCase(s, p) <==> exists k: nat :: MatchesAt(s, p, k)
  {
    if ContainsIgnoreCase(s, p) {
      var k := ContainsWitness(Lower(s), p);
      LowerSlice(s, k, k + |p|);
      assert MatchesAt(s, p, k);
    }
    if exists k: nat :: MatchesAt(s, p, k) {
      var k: nat :| MatchesAt(s, p, k);
      LowerSlice(s, k, k + |p|);
      ContainsAt(Lower(s), p, k);
    }
  }

  /** Case does not matter: strings equal up to case pass or fail together. */
  lemma IgnoresCase(s: string, s': string, p: string)
    requires Lower(s) == Lower(s')
    ensures ContainsIgnoreCase(s, p) == ContainsIgnoreCase(s', p)
  {
  }

  /** Instances: "line", "Line" and "LINE" all match. */
  lemma LineTypeExamples()
    ensures ContainsIgnoreCase("line", "line") && ContainsIgnoreCase("Line", "line")
    ensures ContainsIgnoreCase("LINE", "line")
  {
    assert Lower("line") == "line";
    assert Lower("Line") == "line";
    assert Lower("LINE") == "line";
    ContainsAt("line", "line", 0);
  }

  /** A type containing "line" later on matches too, such as "polyline". */
  lemma PolylineMatches()
    ensures ContainsIgnoreCase("polyline", "line")
  {
    assert Lower("polyline") == "polyline";
    var w := "polyline"[4..8];
    assert |w| == 4 && w[0] == 'l' && w[1] == 'i' && w[2] == 'n' && w[3] == 'e';
    assert w == "line";
    ContainsAt("polyline", "line", 4);
  }

  /** "rect" does not match. */
  lemma RectDoesNotMatch()
    ensures !ContainsIgnoreCase("rect", "line")
  {
    assert Lower("rect") == "rect";
    assert !Contains("rect"[1..], "line") by {
      assert !Contains("", "line");
      assert !Contains("t", "line");
      assert !Contains("ct", "line");
    }
    assert "rect"[..4][0] == 'r';
  }
}

=== FILE: wrappers.dfy ===
/** Optional values: an absent option key, an object without an `id`. */
module Wrappers {

  datatype Option<+T> = None | Some(value: T) {

    /** The wrapped value, or `default` when there is none. */
    function GetOr(default: T): (r: T)
      ensures Some? ==> r == value
      ensures None? ==> r == default
    {
      match this
      case Some(v) => v
      case None => default
    }
  }
}
